=== FILE: README.md ===
# A verified model of the RAG assistant's pure core

The repository is a retrieval-augmented question-answering assistant. Lecture
documents are indexed, a language model answers questions over the retrieved
chunks, a Streamlit page serves as the chat front end, and an evaluation
harness scores the answers heuristically. Around the library glue there are
four small deterministic rules, and this project models them in Dafny:

- **Evaluation** (`evaluation.dfy`, from `evaluate.py`). Each test item is
  scored from the chain's outcome:
  - +3 when context was retrieved;
  - +2 when the answer is longer than 20 characters;
  - overridden to 5 for a correct refusal ("нет информации") on a
    `generalization` item answered without context.

  A raised exception becomes the prediction `"System Error: " + message`,
  with no context. The harness loop builds one result row per item and
  groups the scores by category. It then takes each category's mean.
- **Report** (`report.dfy`, from `src/visualization.py`). An empty run
  produces no report. Otherwise the report holds:
  - the mean score;
  - four score bands: 5, 3–4, 1–2 and 0;
  - the detail list of records scoring 3 or less, in record order, with the
    category defaulting to "N/A".
- **Dataset** (`dataset.dfy`, from `download_data.py`). The Markdown problem
  template. Problems are bucketed by `type` ("Uncategorized" when missing),
  keeping the first `LIMIT_PER_CATEGORY` of each, with Python truthiness for
  the limit. File names are sanitised by a chain of `str.replace` calls. Each
  file is the heading followed by the formatted problems in order.
- **Chat** (`chat.dfy`, from `app.py`). The source label of a retrieved chunk
  is the file name (or "Неизвестный файл"), plus " (стр. N)" with N = page + 1
  exactly when the metadata has a page. The labels are shown once each, in
  first-seen order. The history discipline:
  - the user message is appended as soon as a non-empty prompt is submitted;
  - the assistant message is appended only when the chain answered.

Shared pieces:

- `base.dfy` holds `Option`, `Sum`, `Count` and an exact `Mean`.
- `text.dfy` holds the Python string operations the core uses:
  - `in` on strings;
  - `str.replace`;
  - `str.lower`;
  - `str(int)`.
- `pipeline.dfy` holds the records passed between the components:
  - document metadata;
  - the outcome of one chain invocation;
  - a result row.

The answering chain, the vector index, the dataset download and all file
writes are not modelled as code. Their results are parameters:

- a sequence of `Invocation` outcomes, one per test item;
- an `Option<Invocation>` for one chat turn, where `None` means no index
  could be loaded;
- a sequence of `Problem` records.

## Model

| member | source | states |
|---|---|---|
| Evaluation.Score | evaluate.py:52-59 | The score is one of 0, 2, 3 and 5. With context it is 5 for an answer longer than 20 characters and 3 otherwise. Without context, a correct refusal on a generalization item scores 5, and any other answer scores 2 or 0 by its length. |
| Evaluation.PredictionFacts | evaluate.py:41-46 | An answered call's prediction is its answer. A raised call's prediction is "System Error: " followed by the exception text. |
| Evaluation.ContextFound | evaluate.py:41-47 | Context counts as found exactly when the call answered with at least one retrieved chunk. It never counts after an exception. |
| Evaluation.RowForFacts | evaluate.py:41-68 | The row carries the item's category and question and the fixed explanation. Its score lies in 0..5, and is at least 3 when context was found. After an exception the prediction starts with "System Error: " and the score is 0, 2 or 5. |
| Evaluation.ScoreValues | evaluate.py:52-59 | A score is never 1 or 4. |
| Evaluation.OverrideOnlyWithoutContext | evaluate.py:58-59 | A 5 without context happens exactly when the answer is a correct refusal on a generalization item. |
| Evaluation.RefusalScoresFive | evaluate.py:58-59 | A generalization item answered without context scores 5 whenever the answer contains the refusal phrase, in lower case or as written. |
| Evaluation.RaisedScore | evaluate.py:45-59 | A raised exception yields a prediction starting with "System Error: ". Its score is 0 or 2 unless that text is a correct refusal, and 2 once the text exceeds 20 characters. |
| Evaluation.RaisedRefusalScoresFive | evaluate.py:45-59 | Error text goes through the same override: on a generalization item, any exception whose lower-cased message contains "нет информации" scores 5. |
| Evaluation.Run | evaluate.py:37-70 | There is one row per item, in dataset order. Each row copies its item's category and question and holds the prediction and score of that item's outcome. The metric keys are exactly the categories met. Each key holds its category's scores in row order, non-empty and within 0..5, so the metrics are exactly `Metrics` of the rows over those categories. |
| Evaluation.RunStep | evaluate.py:61-70 | Processing one item appends exactly its row and adds its score to its own category only. |
| Evaluation.GroupStep | evaluate.py:70 | Appending a score to a defaulting list map keeps every category's list equal to that category's scores in row order. |
| Evaluation.RowsAt | evaluate.py:61-69 | The row list has one row per item, and position i holds item i's row. |
| Evaluation.CategoriesExactly | evaluate.py:70 | A category becomes a metric key exactly when some item carries it. |
| Evaluation.ScoresOfCount | evaluate.py:70 | A category's score list has one entry per row of that category. |
| Evaluation.CategoryMeans | evaluate.py:75-76 | The summary has one mean per category with scores. Each is the exact mean of that category's scores: times their count, it gives their sum. Each lies in 0..5 when the scores do. |
| Evaluation.RunReportIsBalanced | src/visualization.py:9-37 | Every non-empty harness run yields a report whose four bands count each row once and whose average lies in 0..5. |
| Evaluation.ScenarioRows | evaluate.py:41-70 | Two concrete items go through the harness: a long answer with context, and a capitalised "Нет информации." without context on a generalization item. Both rows score 5. The categories met are exactly the two items' own, and each category's score list is [5], with mean 5. |
| Evaluation.TwoItemScenario | evaluate.py:41-76 | For the same two items, the metrics the harness records map each of the two categories to [5], and the printed summary maps each of them, and nothing else, to the mean 5. |
| Report.Summarize | src/visualization.py:9-51 | There is no report exactly when there are no records. The sample size is the number of records. The average is the exact mean of the record scores. The bands are count(5), count(4)+count(3), count(2)+count(1) and count(0) of the score list, each at most the sample size. The details are the detail list of the records. When all scores are in 0..5 the four bands add up to the sample size and the average lies in 0..5. |
| Report.CollectDetails | src/visualization.py:42-51 | The detail loop produces the detail list: records scoring 3 or less, in record order. |
| Report.DetailsExactly | src/visualization.py:42-50 | An entry is in the detail list exactly when some record scoring 3 or less shows as it. The entry shows the record's question, category ("N/A" when missing), score and prediction. |
| Report.DetailsAppend | src/visualization.py:42-51 | The detail list of concatenated record lists is the concatenation of their detail lists, so record order is kept. |
| Report.Details | src/visualization.py:42-51 | The detail list is no longer than the record list, and every entry scores at most 3. |
| Report.HighScoresNotDetailed | src/visualization.py:43 | A record scoring 4 or 5 contributes no detail entry. |
| Report.BandsPartition | src/visualization.py:34-37 | With every score in 0..5, count(5), count(4)+count(3), count(2)+count(1) and count(0) add up to the number of records. |
| Report.CountPairBound | src/visualization.py:35-36 | Two different values are counted at disjoint positions, so their two counts add up to at most the length. |
| Report.BandFacts | src/visualization.py:14-37 | Gathers the band bounds, the band partition and the range of the mean for a non-empty score list. |
| Base.Count | src/visualization.py:34-37 | `list.count`: the number of positions holding the value. Hence it is at most the length, and zero exactly when the value is absent. |
| Base.SumBounds | src/visualization.py:16 | A sum of n values in 0..hi lies in 0..hi·n. |
| Base.MeanBounds | src/visualization.py:16 | The mean of a non-empty list of values in 0..hi lies in 0..hi. |
| Dataset.FormatProblemLayout | download_data.py:16-31 | The block starts with "## Задача (Level: level)" and a blank line, where a missing level reads "Unknown". The statement follows right after it. Then comes a blank line and the "### Решение:" line, then the solution. A blank line and the closing "---" rule end the block. A missing statement or solution reads as empty. |
| Dataset.SourceLimitKeepsHundred | download_data.py:12 | With the source's limit of 100 problems per category, a bucket keeps the first 100 problems of its category, or all of them when there are fewer. |
| Dataset.Cap | download_data.py:56-59 | A bucket keeps a prefix of its category's problems. A falsy limit (None or 0) keeps them all. A truthy limit keeps exactly the smaller of the list length and the limit, and none when the limit is negative. |
| Dataset.CapStep | download_data.py:56-59 | One more problem of a category is kept exactly when its bucket is below the limit. |
| Dataset.Bucket | download_data.py:48-59 | Every category met gets a bucket, and only those do; a missing type means "Uncategorized". Each bucket is the capped list of that category's problems in dataset order, and so holds at most the limit under a truthy limit. Every kept problem belongs to its bucket's category. |
| Dataset.BucketStep | download_data.py:50-59 | One iteration of the bucketing loop, including the skip of a full bucket, keeps every bucket equal to its category's capped problems. |
| Dataset.OfCategoryMembers | download_data.py:51-59 | Every problem listed for a category has that category. |
| Dataset.OfCategoryExactly | download_data.py:50-59 | A problem is listed for a category exactly when it is in the dataset with that category. |
| Dataset.CategoriesExactly | download_data.py:51-54 | A category gets a bucket exactly when some problem has it. |
| Dataset.SafeName | download_data.py:68 | The sanitised name contains no space and no '/'. It is never longer than the category name, and a category without spaces or slashes is kept as it is. A name without " & " keeps its length, and each character maps on its own: a space becomes '_', a '/' becomes '-', anything else stays. |
| Dataset.SafeNameAmpersand | download_data.py:68 | A name made of two space-free parts joined by " & " is saved under the two parts, each made safe, joined by one underscore: " & " is replaced, not dropped. |
| Dataset.FileName | download_data.py:68-69 | The file name has no space and no '/', and ends in ".md". |
| Dataset.FileHeading | download_data.py:72-73 | The file opens with "# Сборник задач: " followed by the category, a blank line, and the source line naming the dataset followed by a blank line. |
| Dataset.FileHeadingInjective | download_data.py:72 | Two categories get the same heading exactly when they are equal. |
| Dataset.FileContentBlockAt | download_data.py:71-76 | Problem k's formatted block sits in the file at the offset given by the heading plus the blocks of the problems before it. |
| Dataset.ConcatAt | download_data.py:75-76 | Block k of the written sequence starts right after the blocks before it. |
| Dataset.FileContentAppend | download_data.py:71-76 | Writing one more problem appends exactly its formatted block, and a file with no problems is just its heading. |
| Dataset.ConcatAppend | download_data.py:75-76 | Writing blocks one after another distributes over concatenation of the block lists. |
| Text.Replace | download_data.py:68 | `str.replace` with a non-empty pattern. It never lengthens the string when the replacement is no longer than the pattern. It introduces no character absent from the string and the replacement. It removes every occurrence of a one-character pattern that the replacement does not contain. A replacement as long as the pattern keeps the length. A one-character pattern and replacement substitute position by position: each occurrence becomes the replacement and every other character stays. |
| Text.ReplaceWithoutPattern | download_data.py:68 | Where the pattern does not occur, `str.replace` returns the string unchanged. |
| Text.ReplaceAtFirst | download_data.py:68 | The first occurrence of the pattern is the first one replaced: the text before it is copied, the occurrence becomes the replacement, and replacing resumes right after it. With the row above, this fixes the result for every string and every non-empty pattern. |
| Text.ReplaceCharAppend | download_data.py:68 | Replacing one character by one character distributes over concatenation. |
| Text.ContainsIffOccurs | evaluate.py:58 | `sub in s` holds exactly when `sub` occurs at some offset of `s`. |
| Text.LowerCharFolds | evaluate.py:58 | Lowering changes exactly the upper-case letters, and never yields an upper-case letter. |
| Text.Lower | evaluate.py:58 | Lowering keeps the length, leaves no upper-case letter, and keeps every character that was not upper case. |
| Text.LowerIdempotent | evaluate.py:58 | Lowering twice is lowering once. |
| Text.LowerPrefix | evaluate.py:58 | Lowering commutes with taking a prefix. |
| Text.LowerKeepsOccurrence | evaluate.py:58 | An occurrence survives lowering: if `sub` is in `s`, then `sub.lower()` is in `s.lower()`. |
| Text.NatToString | app.py:107 | `str(n)` is a non-empty digit string without a leading zero. |
| Text.IntToString | app.py:107 | `str(i)` is non-empty and starts with '-' exactly for negative numbers. |
| Text.NatToStringRoundTrip | app.py:107 | Reading a rendered number back gives the number. |
| Text.NatToStringInjective | app.py:107 | Different numbers render differently. |
| Chat.SourceLabel | app.py:101-107 | The label starts with the source file, or "Неизвестный файл" when it is missing. It is exactly that name when the metadata has no page. Otherwise it is followed by the page suffix. |
| Chat.PageSuffixShowsNextPage | app.py:106-107 | The number shown in the page suffix reads back as the stored page plus one. |
| Chat.FirstIndex | app.py:109-113 | The first-occurrence position of a label holds that label. |
| Chat.FirstIndexIsFirst | app.py:109-113 | No earlier position holds the label. |
| Chat.Dedup | app.py:109-113 | De-duplicating never lengthens the label list. A label is kept exactly when it occurs in the list. |
| Chat.ListSources | app.py:99-113 | The seen-set loop shows the de-duplicated labels. No label is shown twice, and every chunk's label is shown. Only labels of retrieved chunks are shown, in the order of their first occurrence. |
| Chat.DedupProperties | app.py:109-113 | De-duplication leaves no repeats, keeps exactly the labels present, and orders them by first occurrence. |
| Chat.Submit | app.py:75-124 | No prompt, or an empty one, changes nothing. Otherwise the user message is appended after the old history. The assistant message follows exactly when the chain answered, holding that answer, so the history grows by two messages after an answer and by one otherwise. An answer is shown with the de-duplicated labels of its context documents. A missing index shows the knowledge-base warning, and an exception shows the error notice followed by its message. |
| Chat.ReplayAppendOnly | app.py:75-119 | Over any sequence of page runs the history only grows: earlier messages are never changed or removed. |

## Left out

- Latency, `total_time`, clocks, `datetime.now()`, float means and medians of latencies, and `:.2f` formatting are left out. They are floating-point or time values with no effect on the scores or bands. The score mean is modelled exactly, as a real.
- The Markdown text of the report and of the chat page is not modelled. The model covers the figures and entries the report shows and the labels the page shows, but not their exact surrounding text.
- I/O is left out: the JSON test-set loading, the dataset download, directory creation, file writes, and the `FileNotFoundError`, load and `IOError` paths around them. Their data arrive as parameters.
- The early returns of `evaluate.run` are not modelled: no chain, and a missing test file. `Run` starts from a loaded test set and one outcome per item.
- `save_detailed_logs` is left out. It is the transcript writer imported from `src/visualization.py` at evaluate.py:9 and called at evaluate.py:88. It only writes a log file and affects no score, metric or report figure.
- The answering chain, the retriever, the vector store (`src/vector_store.py`, `src/rag_chain.py`) and the document loader (`src/document_loader.py`) are left out. They are library wiring over FAISS, embeddings and an LLM. Their results enter as `Invocation` values.
- Streamlit is left out: widgets, the sidebar index rebuild, the file listing and the redrawing of the history. The history is modelled as the message list only.
- Text.LowerChar: folds only ASCII A–Z and the Cyrillic block U+0400–U+042F, not Python's full Unicode `str.lower`. Every text the core compares against is Latin or Cyrillic.
- Pipeline.Metadata: `source_file` is modelled as a string and `page` as an integer. Other value types, and the exception `page + 1` would raise on them, are left out.
- Evaluation.TestItem: both fields are strings. In the source, a test item without `question` or `category` raises outside the `try` (evaluate.py:38 and 58), and so does `in` on a non-string category. That aborts the run before any report is written. The model does not represent such items.
- Dataset.Problem: fields are optional strings. Non-string values, and the `str(category)` conversion of a non-string type, are left out.
- Dataset.FormatProblemLayout: the problem block is a fixed template that nothing in the source reads back. There is no inverse or second definition to relate it to, so its layout is all there is to state.
- Dataset.SafeName: distinct categories that sanitise to the same file name, where the later file overwrites the earlier, are not modelled. The model describes each file's content on its own.
- Chat.Submit: `st.chat_input` returning `None` and returning an empty string are both "no submission". The model does not distinguish them.

=== FILE: base.dfy ===
/**
 Shared vocabulary of the model: optional values (Python's `dict.get` with a
 default, or a call that may return `None`) and the integer-sequence arithmetic
 the evaluation code uses on scores (`sum`, `list.count`, `statistics.mean`).
 */
module Base {

  /** A value that may be absent, as a missing dictionary key or a `None` return. */
  datatype Option<T> = None | Some(value: T) {

    /** The value, or `default` when absent, as a dictionary lookup with a default. */
    function GetOr(default: T): T {
      match this
      case Some(v) => v
      case None => default
    }
  }

  /** The sum of `s`, accumulated from the left. */
  function Sum(s: seq<int>): int
  {
    if |s| == 0 then 0 else Sum(s[..|s| - 1]) + s[|s| - 1]
  }

  /** The positions of `s` that hold `v`. */
  function Positions(s: seq<int>, v: int): set<nat>
  {
    set i: nat | i < |s| && s[i] == v
  }

  /** How many elements of `s` equal `v`. */
  function Count(s: seq<int>, v: int): (n: nat)
    ensures n == |Positions(s, v)|
    ensures n <= |s|
    ensures n == 0 <==> v !in s
  {
    if |s| == 0 then 0
    else
      PositionsStep(s, v);
      Count(s[..|s| - 1], v) + (if s[|s| - 1] == v then 1 else 0)
  }

  /** The positions holding `v` in a non-empty sequence: those of its initial part, and possibly the last. */
  lemma PositionsStep(s: seq<int>, v: int)
    requires |s| > 0
    ensures Positions(s, v) == Positions(s[..|s| - 1], v) + (if s[|s| - 1] == v then {|s| - 1} else {})
    ensures |s| - 1 !in Positions(s[..|s| - 1], v)
  {
  }

  /** Every element of `s` lies in `lo..hi`. */
  predicate AllIn(s: seq<int>, lo: int, hi: int)
  {
    forall i :: 0 <= i < |s| ==> lo <= s[i] <= hi
  }

  /** The arithmetic mean of integers, computed exactly. */
  function Mean(s: seq<int>): real
    requires |s| > 0
  {
    Sum(s) as real / |s| as real
  }

  /** A sum of values in `0..hi` lies in `0..hi * |s|`. */
  lemma {:induction false} SumBounds(s: seq<int>, hi: nat)
    requires AllIn(s, 0, hi)
    ensures 0 <= Sum(s) <= hi * |s|
  {
    if |s| > 0 {
      var init := s[..|s| - 1];
      assert AllIn(init, 0, hi) by {
        forall i | 0 <= i < |init| ensures 0 <= init[i] <= hi {
          assert init[i] == s[i];
        }
      }
      SumBounds(init, hi);
      assert hi * |init| + hi == hi * |s|;
    }
  }

  /** The mean of values in `0..hi` lies in `0..hi`. */
  lemma MeanBounds(s: seq<int>, hi: nat)
    requires |s| > 0
    requires AllIn(s, 0, hi)
    ensures 0.0 <= Mean(s) <= hi as real
  {
    SumBounds(s, hi);
    var total, n := Sum(s), |s|;
    ProductAsReal(hi, n);
    QuotientBounds(total as real, hi as real, n as real);
  }

  /** A quotient of `0..b * n` by a positive `n` lies in `0..b`. */
  lemma QuotientBounds(a: real, b: real, n: real)
    requires n > 0.0 && 0.0 <= a <= b * n
    ensures 0.0 <= a / n <= b
  {
    NonNegativeQuotient(a, n);
    assert b - a / n == (b * n - a) / n;
    NonNegativeQuotient(b * n - a, n);
  }

  /** Converting a product to a real commutes with the multiplication. */
  lemma ProductAsReal(a: int, b: int)
    ensures (a * b) as real == (a as real) * (b as real)
  {
  }

  /** A non-negative number divided by a positive one is non-negative. */
  lemma NonNegativeQuotient(x: real, n: real)
    requires 0.0 <= x && n > 0.0
    ensures 0.0 <= x / n
  {
  }
}

=== FILE: chat.dfy ===
/**
 The pure parts of the chat page: the list of sources shown under an answer
 (one label per distinct file and page, in the order first retrieved) and
 the discipline by which a submitted question and its answer enter the chat
 history.
 */
module Chat {
  import opened Base
  import opened Text
  import opened Pipeline

  /** The label of a chunk whose metadata names no file. */
  const UnknownFile: string := "Неизвестный файл"

  /** Shown before the exception's message when the chain raises. */
  const ErrorNotice: string := "Произошла ошибка при генерации: "

  /** The page suffix of a label; pages are stored from 0 and shown from 1. */
  function PageSuffix(page: int): string
  {
    " (стр. " + IntToString(page + 1) + ")"
  }

  /**
   The label of a retrieved chunk: its source file (or the unknown-file
   label), followed by the page suffix exactly when the metadata has a page.
   */
  function SourceLabel(m: Metadata): (r: string)
    ensures IsPrefix(m.sourceFile.GetOr(UnknownFile), r)
    ensures r == m.sourceFile.GetOr(UnknownFile) <==> m.page.None?
    ensures m.page.Some? ==> r[|m.sourceFile.GetOr(UnknownFile)|..] == PageSuffix(m.page.value)
  {
    var source := m.sourceFile.GetOr(UnknownFile);
    match m.page
    case None => source
    case Some(page) =>
      var r := source + PageSuffix(page);
      assert r[..|source|] == source;
      r
  }

  /** The page number a label shows is the stored page plus one. */
  lemma PageSuffixShowsNextPage(page: nat)
    ensures var digits := PageSuffix(page)[7..|PageSuffix(page)| - 1];
            && digits == NatToString(page + 1)
            && ParseNat(digits) == page + 1
  {
    var digits := IntToString(page + 1);
    var suffix := PageSuffix(page);
    assert |" (стр. "| == 7;
    assert suffix == " (стр. " + digits + ")";
    assert suffix[7..|suffix| - 1] == digits;
    NatToStringRoundTrip(page + 1);
  }

  /** The labels of the retrieved chunks, in retrieval order. */
  function Labels(context: seq<Document>): seq<string>
  {
    seq(|context|, i requires 0 <= i < |context| => SourceLabel(context[i].metadata))
  }

  /**
   The labels with every repetition of an earlier label dropped: no label is
   lost or invented, and the list never grows.
   */
  function Dedup(xs: seq<string>): (r: seq<string>)
    ensures |r| <= |xs|
    ensures forall x :: x in r <==> x in xs
  {
    if |xs| == 0 then []
    else
      assert xs == xs[..|xs| - 1] + [xs[|xs| - 1]];
      var kept := Dedup(xs[..|xs| - 1]);
      if xs[|xs| - 1] in kept then kept else kept + [xs[|xs| - 1]]
  }

  /** No label occurs twice. */
  predicate NoDuplicates(xs: seq<string>)
  {
    forall i, j :: 0 <= i < j < |xs| ==> xs[i] != xs[j]
  }

  /** The position of the first occurrence of `x` in `xs`. */
  function FirstIndex(xs: seq<string>, x: string): (k: nat)
    requires x in xs
    ensures k < |xs| && xs[k] == x
  {
    if x in xs[..|xs| - 1] then FirstIndex(xs[..|xs| - 1], x) else |xs| - 1
  }

  /** No earlier position holds `x`. */
  lemma {:induction false} FirstIndexIsFirst(xs: seq<string>, x: string, j: nat)
    requires x in xs && j < FirstIndex(xs, x)
    ensures xs[j] != x
  {
    if x in xs[..|xs| - 1] {
      FirstIndexIsFirst(xs[..|xs| - 1], x, j);
    }
  }

  /**
   The sources loop: a label is shown when it is not yet in the set of
   labels seen so far, and is then added to that set.
   */
  method ListSources(context: seq<Document>) returns (shown: seq<string>)
    ensures shown == Dedup(Labels(context))
    ensures NoDuplicates(shown)
    ensures forall i :: 0 <= i < |context| ==> SourceLabel(context[i].metadata) in shown
    ensures forall s :: s in shown ==> s in Labels(context)
    ensures forall i, j :: 0 <= i < j < |shown| ==>
              FirstIndex(Labels(context), shown[i]) < FirstIndex(Labels(context), shown[j])
  {
    var labels := Labels(context);
    var seen: set<string> := {};
    shown := [];
    for i := 0 to |context|
      invariant shown == Dedup(labels[..i])
      invariant seen == set s | s in shown
    {
      assert labels[..i + 1][..i] == labels[..i];
      var info := SourceLabel(context[i].metadata);
      if info !in seen {
        shown := shown + [info];
        seen := seen + {info};
      }
    }
    assert labels[..|labels|] == labels;
    DedupProperties(labels);
    forall i | 0 <= i < |context| ensures SourceLabel(context[i].metadata) in shown {
      assert labels[i] == SourceLabel(context[i].metadata);
    }
  }

  /** `Dedup` keeps each label once, loses none, and keeps first-occurrence order. */
  lemma {:induction false} DedupProperties(xs: seq<string>)
    ensures NoDuplicates(Dedup(xs))
    ensures forall x :: x in Dedup(xs) <==> x in xs
    ensures forall i, j :: 0 <= i < j < |Dedup(xs)| ==> FirstIndex(xs, Dedup(xs)[i]) < FirstIndex(xs, Dedup(xs)[j])
  {
    if |xs| > 0 {
      var init := xs[..|xs| - 1];
      var y := xs[|xs| - 1];
      DedupProperties(init);
      var kept := Dedup(init);
      assert forall x :: x in xs <==> x in init || x == y by {
        assert xs == init + [y];
      }
      forall x | x in init ensures FirstIndex(xs, x) == FirstIndex(init, x) {
      }
      if y !in kept {
        assert FirstIndex(xs, y) == |xs| - 1;
        forall i | 0 <= i < |kept| ensures FirstIndex(xs, kept[i]) < |xs| - 1 {
          assert kept[i] in init;
        }
      }
    }
  }

  /** Who wrote a chat message. */
  datatype Role = User | Assistant

  /** One entry of the chat history. */
  datatype Message = Message(role: Role, content: string)

  /** What the page shows under the question. */
  datatype Reply =
    | Answer(text: string, sources: seq<string>)
    | GenerationError(notice: string)
    | KnowledgeBaseMissing

  /** The history after a page run, and the reply shown, if any. */
  datatype Turn = Turn(history: seq<Message>, reply: Option<Reply>)

  /**
   One page run. `prompt` is the chat input (`None` when nothing was
   submitted); `chain` is `None` when no index could be loaded, otherwise
   the outcome of invoking the chain on the prompt. The user's message is
   recorded as soon as a prompt is submitted; the assistant's only when the
   invocation returned an answer.
   */
  function Submit(history: seq<Message>, prompt: Option<string>, chain: Option<Invocation>): (t: Turn)
    ensures prompt.None? || prompt.value == "" ==> t == Turn(history, None)
    ensures prompt.Some? && prompt.value != "" ==>
              && |t.history| == |history| + (if chain.Some? && chain.value.Answered? then 2 else 1)
              && t.history[..|history|] == history
              && t.history[|history|] == Message(User, prompt.value)
              && t.reply.Some?
    ensures |t.history| == |history| + 2 <==>
              prompt.Some? && prompt.value != "" && chain.Some? && chain.value.Answered?
    ensures |t.history| == |history| + 2 ==> t.history[|history| + 1] == Message(Assistant, chain.value.answer)
    ensures prompt.Some? && prompt.value != "" && chain.Some? && chain.value.Answered? ==>
              t.reply == Some(Answer(chain.value.answer, Dedup(Labels(chain.value.context))))
    ensures prompt.Some? && prompt.value != "" && chain.None? ==> t.reply == Some(KnowledgeBaseMissing)
    ensures prompt.Some? && prompt.value != "" && chain.Some? && chain.value.Raised? ==>
              t.reply == Some(GenerationError(ErrorNotice + chain.value.message))
  {
    match prompt
    case None => Turn(history, None)
    case Some(text) =>
      if text == "" then Turn(history, None)
      else
        var asked := history + [Message(User, text)];
        match chain
        case None => Turn(asked, Some(KnowledgeBaseMissing))
        case Some(Raised(message)) => Turn(asked, Some(GenerationError(ErrorNotice + message)))
        case Some(Answered(answer, context)) =>
          Turn(asked + [Message(Assistant, answer)], Some(Answer(answer, Dedup(Labels(context)))))
  }

  /**
   Over a sequence of page runs, the history grows by the submitted prompts,
   each followed by its answer exactly when the chain answered.
   */
  function Replay(history: seq<Message>, runs: seq<(Option<string>, Option<Invocation>)>): seq<Message>
  {
    if |runs| == 0 then history
    else Submit(Replay(history, runs[..|runs| - 1]), runs[|runs| - 1].0, runs[|runs| - 1].1).history
  }

  /** The history is append-only: earlier entries are never changed or removed. */
  lemma {:induction false} ReplayAppendOnly(history: seq<Message>, runs: seq<(Option<string>, Option<Invocation>)>)
    ensures |Replay(history, runs)| >= |history|
    ensures Replay(history, runs)[..|history|] == history
  {
    if |runs| > 0 {
      ReplayAppendOnly(history, runs[..|runs| - 1]);
      var before := Replay(history, runs[..|runs| - 1]);
      var after := Replay(history, runs);
      assert after[..|before|] == before;
      assert after[..|history|] == before[..|history|];
    }
  }
}

=== FILE: dataset.dfy ===
/**
 The dataset download script: problems are bucketed by their `type`, keeping
 at most a fixed number per category in dataset order, and every bucket
 becomes one Markdown file whose name is derived from the category.
 */
module Dataset {
  import opened Base
  import opened Text

  /** The dataset the problems come from, named in every file's source line. */
  const DatasetName: string := "jeggers/competition_math"

  /** Problems kept per category; `None` (or 0) keeps them all. */
  const LimitPerCategory: Option<int> := Some(100)

  /** The category of a problem without a `type`. */
  const DefaultCategory: string := "Uncategorized"

  /** The level shown for a problem without a `level`. */
  const DefaultLevel: string := "Unknown"

  /** Text between a problem's statement and its solution. */
  const SolutionHeading: string := "\n\n### Решение:\n"

  /** The closing rule of every formatted problem. */
  const Rule: string := "---\n\n"

  /** A dataset record; every field may be missing. */
  datatype Problem = Problem(
    problem: Option<string>,
    solution: Option<string>,
    level: Option<string>,
    kind: Option<string>)   // the record's `type`

  /** The first line of a formatted problem, followed by a blank line. */
  function ProblemHeading(level: string): string
  {
    "## Задача (Level: " + level + ")\n\n"
  }

  /**
   A problem as a Markdown block: heading with the level, the statement, the
   solution heading, the solution and a closing rule. Missing statement and
   solution read as empty, a missing level as "Unknown".
   */
  function FormatProblem(item: Problem): string
  {
    var heading := ProblemHeading(item.level.GetOr(DefaultLevel));
    var problem := item.problem.GetOr("");
    var solution := item.solution.GetOr("");
    heading + problem + SolutionHeading + (solution + "\n\n" + Rule)
  }

  /**
   The layout of a formatted problem: the heading, the statement right after
   it, the solution heading, the solution, a blank line and the closing rule.
   */
  lemma FormatProblemLayout(item: Problem)
    ensures var r := FormatProblem(item);
            var heading := ProblemHeading(item.level.GetOr(DefaultLevel));
            var problem := item.problem.GetOr("");
            && IsPrefix(heading, r)
            && |heading| + |problem| <= |r|
            && r[|heading|..|heading| + |problem|] == problem
    ensures var r := FormatProblem(item);
            var solution := item.solution.GetOr("");
            var end := |r| - |Rule| - 2;
            && end - |solution| >= 0
            && r[end - |solution|..end] == solution
            && r[end..end + 2] == "\n\n"
            && r[|r| - |Rule|..] == Rule
    ensures var r := FormatProblem(item);
            var start := |ProblemHeading(item.level.GetOr(DefaultLevel))| + |item.problem.GetOr("")|;
            var end := |r| - |Rule| - 2 - |item.solution.GetOr("")|;
            && start + |SolutionHeading| == end
            && r[start..end] == SolutionHeading
  {
    var heading := ProblemHeading(item.level.GetOr(DefaultLevel));
    var problem := item.problem.GetOr("");
    var solution := item.solution.GetOr("");
    var front := heading + problem;
    var back := solution + "\n\n" + Rule;
    var r := front + SolutionHeading + back;
    assert r == FormatProblem(item);
    assert front[..|heading|] == heading;
    assert front[|heading|..] == problem;
    assert back[..|solution|] == solution;
    assert back[|solution|..|solution| + 2] == "\n\n";
    assert back[|back| - |Rule|..] == Rule;
  }

  /** The bucket a problem goes to. */
  function CategoryOf(item: Problem): string
  {
    item.kind.GetOr(DefaultCategory)
  }

  /** Python truthiness of the limit: `None` and 0 mean "no limit". */
  predicate Capped(limit: Option<int>)
  {
    limit.Some? && limit.value != 0
  }

  /** The larger of two integers. */
  function Max(a: int, b: int): int
  {
    if a < b then b else a
  }

  /**
   What a capped bucket keeps of a category's problems: the first `limit`
   of them (none for a negative limit), or all when there is no limit.
   */
  function Cap(xs: seq<Problem>, limit: Option<int>): (r: seq<Problem>)
    ensures |r| <= |xs| && r == xs[..|r|]
    ensures !Capped(limit) ==> r == xs
    ensures Capped(limit) ==> |r| <= Max(limit.value, 0)
    ensures Capped(limit) && |xs| <= limit.value ==> r == xs
    ensures Capped(limit) ==> |r| == (if |xs| <= limit.value then |xs| else Max(limit.value, 0))
  {
    if Capped(limit) && |xs| > limit.value then xs[..Max(limit.value, 0)] else xs
  }

  /** The problems of category `c`, in dataset order. */
  function OfCategory(items: seq<Problem>, c: string): seq<Problem>
  {
    if |items| == 0 then []
    else OfCategory(items[..|items| - 1], c)
         + (if CategoryOf(items[|items| - 1]) == c then [items[|items| - 1]] else [])
  }

  /** The categories met in the dataset. */
  function CategoriesOf(items: seq<Problem>): set<string>
  {
    if |items| == 0 then {}
    else CategoriesOf(items[..|items| - 1]) + {CategoryOf(items[|items| - 1])}
  }

  /**
   The bucketing loop: every category met gets a bucket (possibly empty),
   holding the first problems of that category up to the limit, in order.
   */
  method Bucket(items: seq<Problem>, limit: Option<int>) returns (buckets: map<string, seq<Problem>>)
    ensures forall c, k :: c in buckets && 0 <= k < |buckets[c]| ==> CategoryOf(buckets[c][k]) == c
    ensures forall c :: c in buckets && Capped(limit) ==> |buckets[c]| <= Max(limit.value, 0)
    ensures forall c :: c in buckets ==> buckets[c] == Cap(OfCategory(items, c), limit)
    ensures buckets.Keys == CategoriesOf(items)
  {
    buckets := map[];
    for i := 0 to |items|
      invariant Bucketed(buckets, items[..i], limit)
    {
      BucketStep(items, i, limit, buckets);
      buckets := Placed(buckets, items[i], limit);
    }
    assert items[..|items|] == items;
    BucketedFacts(buckets, items, limit);
  }

  /** The buckets of a whole dataset hold only their own category, within the limit. */
  lemma BucketedFacts(buckets: map<string, seq<Problem>>, items: seq<Problem>, limit: Option<int>)
    requires Bucketed(buckets, items, limit)
    ensures forall c, k :: c in buckets && 0 <= k < |buckets[c]| ==> CategoryOf(buckets[c][k]) == c
    ensures forall c :: c in buckets && Capped(limit) ==> |buckets[c]| <= Max(limit.value, 0)
  {
    forall c, k | c in buckets && 0 <= k < |buckets[c]| ensures CategoryOf(buckets[c][k]) == c {
      OfCategoryMembers(items, c);
      assert buckets[c][k] == OfCategory(items, c)[k];
    }
  }

  /**
   `buckets` is the result of bucketing `prefix`: one bucket per category met,
   each the capped list of that category's problems.
   */
  ghost predicate Bucketed(buckets: map<string, seq<Problem>>, prefix: seq<Problem>, limit: Option<int>)
  {
    && buckets.Keys == CategoriesOf(prefix)
    && (forall c :: c in buckets ==> buckets[c] == Cap(OfCategory(prefix, c), limit))
    && (forall c :: c !in buckets ==> OfCategory(prefix, c) == [])
  }

  /** One iteration of the loop: the problem is added to its bucket unless the bucket is full. */
  function Placed(buckets: map<string, seq<Problem>>, item: Problem, limit: Option<int>): map<string, seq<Problem>>
  {
    var c := CategoryOf(item);
    var current := if c in buckets then buckets[c] else [];
    if Capped(limit) && |current| >= limit.value then buckets[c := current]
    else buckets[c := current + [item]]
  }

  /** Placing the next problem keeps the buckets in step with the longer prefix. */
  lemma BucketStep(items: seq<Problem>, i: nat, limit: Option<int>, buckets: map<string, seq<Problem>>)
    requires i < |items|
    requires Bucketed(buckets, items[..i], limit)
    ensures Bucketed(Placed(buckets, items[i], limit), items[..i + 1], limit)
  {
    var placed, prefix := Placed(buckets, items[i], limit), items[..i + 1];
    PlacedKeys(items, i, limit, buckets);
    forall c | c in placed ensures placed[c] == Cap(OfCategory(prefix, c), limit) {
      PlacedBucket(items, i, limit, buckets, c);
    }
    PlacedAbsent(items, i, limit, buckets);
  }

  /** Placing the next problem gives a bucket to its category, and to no other new one. */
  lemma PlacedKeys(items: seq<Problem>, i: nat, limit: Option<int>, buckets: map<string, seq<Problem>>)
    requires i < |items|
    requires Bucketed(buckets, items[..i], limit)
    ensures Placed(buckets, items[i], limit).Keys == CategoriesOf(items[..i + 1])
  {
    PrefixStep(items, i);
    assert Placed(buckets, items[i], limit).Keys == buckets.Keys + {CategoryOf(items[i])};
  }

  /** After placing the next problem, a category without a bucket still has no problems. */
  lemma PlacedAbsent(items: seq<Problem>, i: nat, limit: Option<int>, buckets: map<string, seq<Problem>>)
    requires i < |items|
    requires Bucketed(buckets, items[..i], limit)
    ensures forall c :: c !in Placed(buckets, items[i], limit) ==> OfCategory(items[..i + 1], c) == []
  {
    PrefixStep(items, i);
    var placed := Placed(buckets, items[i], limit);
    forall c | c !in placed ensures OfCategory(items[..i + 1], c) == [] {
      assert c != CategoryOf(items[i]) && c !in buckets;
    }
  }

  /** Extending the prefix by one problem touches only that problem's category. */
  lemma PrefixStep(items: seq<Problem>, i: nat)
    requires i < |items|
    ensures CategoriesOf(items[..i + 1]) == CategoriesOf(items[..i]) + {CategoryOf(items[i])}
    ensures forall c :: OfCategory(items[..i + 1], c) ==
                        OfCategory(items[..i], c) + (if c == CategoryOf(items[i]) then [items[i]] else [])
  {
    assert items[..i + 1][..i] == items[..i];
  }

  /** Placing the next problem leaves every bucket equal to the capped list of its category. */
  lemma PlacedBucket(items: seq<Problem>, i: nat, limit: Option<int>, buckets: map<string, seq<Problem>>, c: string)
    requires i < |items|
    requires Bucketed(buckets, items[..i], limit)
    requires c in Placed(buckets, items[i], limit)
    ensures Placed(buckets, items[i], limit)[c] == Cap(OfCategory(items[..i + 1], c), limit)
  {
    PrefixStep(items, i);
    var placed := Placed(buckets, items[i], limit);
    var xs := OfCategory(items[..i], c);
    if c == CategoryOf(items[i]) {
      var current := if c in buckets then buckets[c] else [];
      assert current == Cap(xs, limit);
      assert placed[c] == if Capped(limit) && |current| >= limit.value then current else current + [items[i]];
      CapStep(xs, items[i], limit);
    } else {
      assert placed[c] == buckets[c];
      assert OfCategory(items[..i + 1], c) == xs;
    }
  }

  /** Capping a list one problem longer adds that problem unless the cap was reached. */
  lemma CapStep(xs: seq<Problem>, x: Problem, limit: Option<int>)
    ensures Cap(xs + [x], limit) ==
            if Capped(limit) && |Cap(xs, limit)| >= limit.value then Cap(xs, limit) else Cap(xs, limit) + [x]
  {
    var ys := xs + [x];
    if Capped(limit) && |xs| >= limit.value {
      assert ys[..Max(limit.value, 0)] == xs[..Max(limit.value, 0)];
    }
  }

  /** Every problem listed under a category belongs to it. */
  lemma {:induction false} OfCategoryMembers(items: seq<Problem>, c: string)
    ensures forall k :: 0 <= k < |OfCategory(items, c)| ==> CategoryOf(OfCategory(items, c)[k]) == c
  {
    if |items| > 0 {
      OfCategoryMembers(items[..|items| - 1], c);
    }
  }

  /** The problems of a category are exactly the dataset's problems with that category. */
  lemma {:induction false} OfCategoryExactly(items: seq<Problem>, c: string, p: Problem)
    ensures p in OfCategory(items, c) <==> p in items && CategoryOf(p) == c
  {
    if |items| > 0 {
      var init := items[..|items| - 1];
      OfCategoryExactly(init, c, p);
      assert items == init + [items[|items| - 1]];
    }
  }

  /** A category gets a bucket exactly when some problem has it. */
  lemma {:induction false} CategoriesExactly(items: seq<Problem>, c: string)
    ensures c in CategoriesOf(items) <==> exists i :: 0 <= i < |items| && CategoryOf(items[i]) == c
  {
    if |items| > 0 {
      var init := items[..|items| - 1];
      CategoriesExactly(init, c);
      if exists i :: 0 <= i < |items| && CategoryOf(items[i]) == c {
        var i :| 0 <= i < |items| && CategoryOf(items[i]) == c;
        if i < |init| {
          assert init[i] == items[i];
        }
      }
    }
  }

  /**
   A category made safe for a file name: every " & " becomes an underscore,
   then every remaining space an underscore, then every slash a hyphen. No
   spaces and no slashes remain, the name never grows, and a category
   without spaces or slashes is kept as it is. Without " & ", the name keeps
   its length and only spaces and slashes change; `SafeNameAmpersand` covers
   two space-free parts joined by " & ".
   */
  function SafeName(category: string): (r: string)
    ensures ' ' !in r && '/' !in r
    ensures |r| <= |category|
    ensures ' ' !in category && '/' !in category ==> r == category
    ensures !Contains(category, " & ") ==>
              && |r| == |category|
              && forall i :: 0 <= i < |category| ==> r[i] == SafeChar(category[i])
  {
    PlainNameHasNoPatterns(category);
    var joined := Replace(category, " & ", "_");
    ReplaceWithoutPattern(category, " & ", "_");
    var spaced := Replace(joined, " ", "_");
    ReplaceWithoutPattern(joined, " ", "_");
    ReplaceWithoutPattern(spaced, "/", "-");
    Replace(spaced, "/", "-")
  }

  /**
   A name made of two space-free parts joined by " & " becomes the two parts,
   each made safe, joined by a single underscore.
   */
  lemma SafeNameAmpersand(a: string, b: string)
    requires ' ' !in a && ' ' !in b
    ensures SafeName(a + " & " + b) == SafeName(a) + "_" + SafeName(b)
  {
    SafeNameOfJoined(a, b);
    SlashesAroundUnderscore(a, b);
    SafeNameWithoutSpace(a);
    SafeNameWithoutSpace(b);
  }

  /** After the first two replacements, two space-free parts joined by " & " are joined by "_". */
  lemma SafeNameOfJoined(a: string, b: string)
    requires ' ' !in a && ' ' !in b
    ensures SafeName(a + " & " + b) == Replace(a + "_" + b, "/", "-")
  {
    var joined := a + "_" + b;
    JoinAmpersand(a, b);
    assert ' ' !in joined;
    ContainsChar(joined, " ", ' ');
    ReplaceWithoutPattern(joined, " ", "_");
  }

  /** The slash replacement works on each side of an underscore separately. */
  lemma SlashesAroundUnderscore(a: string, b: string)
    ensures Replace(a + "_" + b, "/", "-") == Replace(a, "/", "-") + "_" + Replace(b, "/", "-")
  {
    assert a + "_" + b == a + ("_" + b);
    ReplaceCharAppend(a, "_" + b, "/", "-");
    ReplaceCharAppend("_", b, "/", "-");
    assert Replace("_", "/", "-") == "_";
  }

  /** The first replacement turns the one " & " between two space-free parts into an underscore. */
  lemma JoinAmpersand(a: string, b: string)
    requires ' ' !in a && ' ' !in b
    ensures Replace(a + " & " + b, " & ", "_") == a + "_" + b
  {
    var s := a + " & " + b;
    forall j | 0 <= j < |a| ensures !OccursAt(s, " & ", j) {
      assert s[j] == a[j];
      assert j + 3 <= |s| ==> s[j..j + 3][0] == s[j];
    }
    assert s[|a|..|a| + 3] == " & ";
    ReplaceAtFirst(s, " & ", "_", |a|);
    assert s[..|a|] == a && s[|a| + 3..] == b;
    ContainsChar(b, " & ", ' ');
    ReplaceWithoutPattern(b, " & ", "_");
  }

  /** A name without spaces is made safe by the slash replacement alone. */
  lemma SafeNameWithoutSpace(a: string)
    requires ' ' !in a
    ensures SafeName(a) == Replace(a, "/", "-")
  {
    ContainsChar(a, " & ", ' ');
    ReplaceWithoutPattern(a, " & ", "_");
    ContainsChar(a, " ", ' ');
    ReplaceWithoutPattern(a, " ", "_");
  }

  /** A character of a name without " & " in the file name: space to '_', '/' to '-'. */
  function SafeChar(c: char): char
  {
    if c == ' ' then '_' else if c == '/' then '-' else c
  }

  /** The source's own limit keeps the first 100 problems of a category, or all of fewer. */
  lemma SourceLimitKeepsHundred(xs: seq<Problem>)
    ensures Cap(xs, LimitPerCategory) == xs[..if |xs| <= 100 then |xs| else 100]
  {
  }

  /** A name without spaces or slashes contains none of the replaced patterns. */
  lemma PlainNameHasNoPatterns(category: string)
    ensures ' ' !in category && '/' !in category ==>
              !Contains(category, " & ") && !Contains(category, " ") && !Contains(category, "/")
  {
    ContainsChar(category, " & ", ' ');
    ContainsChar(category, " ", ' ');
    ContainsChar(category, "/", '/');
  }

  /** A string containing `sub` contains every character of `sub`. */
  lemma ContainsChar(s: string, sub: string, c: char)
    requires c in sub
    ensures Contains(s, sub) ==> c in s
  {
    if Contains(s, sub) {
      ContainsIffOccurs(s, sub);
      var i :| OccursAt(s, sub, i);
      var j :| 0 <= j < |sub| && sub[j] == c;
      assert s[i + j] == s[i..i + |sub|][j];
    }
  }

  /** The name of the file a category is saved to. */
  function FileName(category: string): (r: string)
    ensures ' ' !in r && '/' !in r
    ensures |r| >= 3 && r[|r| - 3..] == ".md"
  {
    SafeName(category) + ".md"
  }

  /** The opening of a category file's title line, before the category. */
  const TitlePrefix := "# Сборник задач: "

  /** The line naming the dataset, after the title line and a blank line. */
  const SourceLine := "Источник: " + DatasetName + "\n\n"

  /**
   The title line and the source line that open every category file: the
   category sits right after the title's fixed opening, and the heading ends
   with the line naming the dataset.
   */
  function FileHeading(category: string): (r: string)
    ensures IsPrefix(TitlePrefix, r)
    ensures |r| == |TitlePrefix| + |category| + 2 + |SourceLine|
    ensures r[|TitlePrefix|..|TitlePrefix| + |category|] == category
    ensures r[|r| - |SourceLine| - 2..] == "\n\n" + SourceLine
  {
    var r := TitlePrefix + category + "\n\n" + SourceLine;
    assert r[..|TitlePrefix|] == TitlePrefix;
    assert r[|TitlePrefix|..|TitlePrefix| + |category|] == category;
    assert r[|r| - |SourceLine| - 2..] == "\n\n" + SourceLine;
    r
  }

  /** Different categories get different headings: the title names the category. */
  lemma FileHeadingInjective(a: string, b: string)
    ensures FileHeading(a) == FileHeading(b) <==> a == b
  {
    if FileHeading(a) == FileHeading(b) {
      assert |a| == |b|;
      assert a == FileHeading(a)[|TitlePrefix|..|TitlePrefix| + |a|];
    }
  }

  /** Every problem of a list formatted on its own, in list order. */
  function Blocks(items: seq<Problem>): seq<string>
  {
    seq(|items|, i requires 0 <= i < |items| => FormatProblem(items[i]))
  }

  /** The strings one after another, with nothing between them. */
  function Concat(strings: seq<string>): string
  {
    if |strings| == 0 then ""
    else Concat(strings[..|strings| - 1]) + strings[|strings| - 1]
  }

  /** A category file: its heading, then every problem of its bucket in order. */
  function FileContent(category: string, items: seq<Problem>): string
  {
    FileHeading(category) + Concat(Blocks(items))
  }

  /** Joining distributes over concatenation of the string lists. */
  lemma {:induction false} ConcatAppend(xs: seq<string>, ys: seq<string>)
    ensures Concat(xs + ys) == Concat(xs) + Concat(ys)
    decreases |ys|
  {
    if |ys| == 0 {
      assert xs + ys == xs;
    } else {
      var ys' := ys[..|ys| - 1];
      assert (xs + ys)[..|xs + ys| - 1] == xs + ys';
      ConcatAppend(xs, ys');
    }
  }

  /**
   Writing one more problem into a category file appends exactly its
   formatted block: the file is the heading followed by the blocks in order.
   */
  lemma FileContentAppend(category: string, items: seq<Problem>, item: Problem)
    ensures FileContent(category, items + [item]) == FileContent(category, items) + FormatProblem(item)
    ensures FileContent(category, []) == FileHeading(category)
  {
    assert Blocks([]) == [];
    var heading, blocks, block := FileHeading(category), Blocks(items), FormatProblem(item);
    assert Blocks(items + [item]) == blocks + [block];
    ConcatAppend(blocks, [block]);
    assert Concat([block]) == block by {
      assert [block][..0] == [];
    }
    calc {
      FileContent(category, items + [item]);
      heading + Concat(blocks + [block]);
      heading + (Concat(blocks) + block);
      (heading + Concat(blocks)) + block;
      FileContent(category, items) + block;
    }
  }

  /**
   Where each problem lands in a category file: the block of problem `k`
   starts after the heading and the blocks of the problems before it.
   */
  lemma FileContentBlockAt(category: string, items: seq<Problem>, k: nat)
    requires k < |items|
    ensures var offset := |FileHeading(category)| + |Concat(Blocks(items[..k]))|;
            var block := FormatProblem(items[k]);
            && offset + |block| <= |FileContent(category, items)|
            && FileContent(category, items)[offset..offset + |block|] == block
  {
    var blocks := Blocks(items);
    assert blocks[..k] == Blocks(items[..k]);
    BlockAt(FileHeading(category), blocks, k);
    assert FileContent(category, items) == FileHeading(category) + Concat(blocks);
    assert blocks[k] == FormatProblem(items[k]);
  }

  /** After a heading, string `k` of a list sits right after the heading and the strings before it. */
  lemma BlockAt(heading: string, strings: seq<string>, k: nat)
    requires k < |strings|
    ensures var offset := |heading| + |Concat(strings[..k])|;
            && offset + |strings[k]| <= |heading + Concat(strings)|
            && (heading + Concat(strings))[offset..offset + |strings[k]|] == strings[k]
  {
    ConcatAt(strings, k);
    var offset := |Concat(strings[..k])|;
    ShiftedSlice(heading, Concat(strings), offset, offset + |strings[k]|);
  }

  /** String `k` of a list sits in the joined text right after the strings before it. */
  lemma ConcatAt(strings: seq<string>, k: nat)
    requires k < |strings|
    ensures var offset := |Concat(strings[..k])|;
            && offset + |strings[k]| <= |Concat(strings)|
            && Concat(strings)[offset..offset + |strings[k]|] == strings[k]
  {
    var before, after := strings[..k], strings[k + 1..];
    var x: string := strings[k];
    assert strings == (before + [x]) + after;
    ConcatAppend(before + [x], after);
    ConcatAppend(before, [x]);
    assert Concat([x]) == x by {
      assert [x][..0] == [];
    }
    var b, d := Concat(before), Concat(after);
    assert Concat(strings) == (b + x) + d;
    PieceAt(b, x, d);
  }

  /** In `(b + x) + d`, the piece `x` sits right after `b`. */
  lemma PieceAt(b: string, x: string, d: string)
    ensures |b| + |x| <= |(b + x) + d|
    ensures ((b + x) + d)[|b|..|b| + |x|] == x
  {
    assert forall j :: |b| <= j < |b| + |x| ==> ((b + x) + d)[j] == x[j - |b|];
  }

  /** Slicing after a prefix `a` is slicing the rest, shifted by `|a|`. */
  lemma ShiftedSlice(a: string, s: string, i: nat, j: nat)
    requires i <= j <= |s|
    ensures (a + s)[|a| + i..|a| + j] == s[i..j]
  {
    assert forall n :: i <= n < j ==> (a + s)[|a| + n] == s[n];
  }
}

=== FILE: evaluation.dfy ===
/**
 The evaluation harness: every test item is sent through the answering chain,
 the answer is scored by a fixed heuristic, and the scores are grouped by the
 item's category.
 */
module Evaluation {
  import opened Base
  import opened Text
  import opened Pipeline
  import Report

  /** The refusal the system prompt asks the model to give when the context lacks the answer. */
  const RefusalPhrase: string := "нет информации"

  /** Categories whose name contains this tag hold questions designed to be refused. */
  const GeneralizationTag: string := "generalization"

  /** What a raised exception turns the prediction into, before the exception's message. */
  const ErrorPrefix: string := "System Error: "

  /** The fixed explanation attached to every row. */
  const Explanation: string := "Автоматизированная оценка"

  /** Answers strictly longer than this earn the length bonus. */
  const LengthThreshold: nat := 20

  /** A test-set entry: the question and its expected category. */
  datatype TestItem = TestItem(question: string, category: string)

  /**
   The answer text a call leaves behind: the model's answer, or the error
   prefix followed by the exception's message.
   */
  function Prediction(outcome: Invocation): string
  {
    match outcome
    case Answered(answer, _) => answer
    case Raised(message) => ErrorPrefix + message
  }

  /** An answer is recorded as given; an exception as the error prefix followed by its text. */
  lemma PredictionFacts(outcome: Invocation)
    ensures outcome.Answered? ==> Prediction(outcome) == outcome.answer
    ensures outcome.Raised? ==> IsPrefix(ErrorPrefix, Prediction(outcome)) && Prediction(outcome)[|ErrorPrefix|..] == outcome.message
  {
    if outcome.Raised? {
      var p := Prediction(outcome);
      assert p[..|ErrorPrefix|] == ErrorPrefix;
      assert p[|ErrorPrefix|..] == outcome.message;
    }
  }

  /** Whether any context chunk came back; a raised exception counts as none. */
  predicate ContextFound(outcome: Invocation)
    ensures outcome.Raised? ==> !ContextFound(outcome)
    ensures outcome.Answered? ==> (ContextFound(outcome) <==> outcome.context != [])
  {
    outcome.Answered? && |outcome.context| > 0
  }

  /**
   A correct refusal on a designed-to-fail question: the category is a
   generalization one and the lower-cased answer contains the refusal phrase.
   */
  predicate IsRefusal(category: string, prediction: string)
  {
    Contains(category, GeneralizationTag) && Contains(Lower(prediction), RefusalPhrase)
  }

  /**
   The heuristic score: 3 points for retrieved context plus 2 for an answer
   longer than the threshold, overridden to 5 for a correct refusal made
   without any context.
   */
  function Score(category: string, prediction: string, contextFound: bool): (r: int)
    ensures r in {0, 2, 3, 5}
    ensures 0 <= r <= 5
    ensures contextFound ==> r == (if |prediction| > LengthThreshold then 5 else 3)
    ensures !contextFound && IsRefusal(category, prediction) ==> r == 5
    ensures !contextFound && !IsRefusal(category, prediction) ==>
              r == (if |prediction| > LengthThreshold then 2 else 0)
  {
    var points := (if contextFound then 3 else 0) + (if |prediction| > LengthThreshold then 2 else 0);
    if Contains(category, GeneralizationTag) && !contextFound && Contains(Lower(prediction), RefusalPhrase)
    then 5
    else points
  }

  /** The row the harness records for one item and the outcome of its call. */
  function RowFor(item: TestItem, outcome: Invocation): ResultRow
  {
    var prediction := Prediction(outcome);
    ResultRow(Some(item.category), item.question, prediction,
              Score(item.category, prediction, ContextFound(outcome)), Explanation)
  }

  /**
   A recorded row copies the item's category and question, and its score lies
   in 0..5, is at least 3 whenever context came back, and is never 3 after an
   exception, whose text starts the prediction.
   */
  lemma RowForFacts(item: TestItem, outcome: Invocation)
    ensures var row := RowFor(item, outcome);
            && row.category == Some(item.category) && row.question == item.question
            && row.explanation == Explanation
            && 0 <= row.score <= 5
            && (ContextFound(outcome) ==> row.score >= 3)
            && (outcome.Raised? ==> IsPrefix(ErrorPrefix, row.prediction) && row.score in {0, 2, 5})
  {
  }

  /** The scores of the rows of category `c`, in row order. */
  function ScoresOf(rows: seq<ResultRow>, c: string): seq<int>
  {
    if |rows| == 0 then []
    else ScoresOf(rows[..|rows| - 1], c)
         + (if rows[|rows| - 1].category == Some(c) then [rows[|rows| - 1].score] else [])
  }

  /** The categories of the test items. */
  function Categories(dataset: seq<TestItem>): set<string>
  {
    if |dataset| == 0 then {}
    else Categories(dataset[..|dataset| - 1]) + {dataset[|dataset| - 1].category}
  }

  /** A category is listed exactly when some item carries it. */
  lemma {:induction false} CategoriesExactly(dataset: seq<TestItem>, c: string)
    ensures c in Categories(dataset) <==> exists i :: 0 <= i < |dataset| && dataset[i].category == c
  {
    if |dataset| > 0 {
      var init := dataset[..|dataset| - 1];
      CategoriesExactly(init, c);
      if exists i :: 0 <= i < |dataset| && dataset[i].category == c {
        var i :| 0 <= i < |dataset| && dataset[i].category == c;
        if i < |init| {
          assert init[i].category == c;
        }
      }
    }
  }

  /**
   The harness loop: one row per item, in dataset order, and the scores grouped
   by category. `outcomes[i]` is what calling the chain on item `i` produced.
   */
  method Run(dataset: seq<TestItem>, outcomes: seq<Invocation>)
    returns (results: seq<ResultRow>, metrics: map<string, seq<int>>)
    requires |outcomes| == |dataset|
    ensures |results| == |dataset|
    ensures results == Rows(dataset, outcomes)
    ensures forall i :: 0 <= i < |dataset| ==> results[i] == RowFor(dataset[i], outcomes[i])
    ensures forall i :: 0 <= i < |dataset| ==>
              && results[i].category == Some(dataset[i].category)
              && results[i].question == dataset[i].question
              && results[i].prediction == Prediction(outcomes[i])
              && results[i].score == Score(dataset[i].category, Prediction(outcomes[i]), ContextFound(outcomes[i]))
    ensures metrics.Keys == Categories(dataset)
    ensures forall c :: c in metrics ==> metrics[c] == ScoresOf(results, c)
    ensures forall c :: c in metrics ==> |metrics[c]| > 0 && AllIn(metrics[c], 0, 5)
    ensures metrics == Metrics(results, Categories(dataset))
  {
    results := [];
    metrics := map[];
    RunStart(dataset, outcomes);
    for i := 0 to |dataset|
      invariant RunState(dataset, outcomes, i, results, metrics)
    {
      var row := RowFor(dataset[i], outcomes[i]);
      var cat := dataset[i].category;
      var previous := if cat in metrics then metrics[cat] else [];
      RunStep(dataset, outcomes, i, results, metrics);
      metrics := metrics[cat := previous + [row.score]];
      results := results + [row];
    }
    RunDone(dataset, outcomes, results, metrics);
  }

  /** Appends `score` to the list of category `cat`, starting an empty list for a new category. */
  function Tally(metrics: map<string, seq<int>>, cat: string, score: int): map<string, seq<int>>
  {
    metrics[cat := (if cat in metrics then metrics[cat] else []) + [score]]
  }

  /** After `i` iterations: the rows of the first `i` items, grouped by category. */
  ghost predicate RunState(dataset: seq<TestItem>, outcomes: seq<Invocation>, i: nat,
                           results: seq<ResultRow>, metrics: map<string, seq<int>>)
  {
    && |outcomes| == |dataset|
    && i <= |dataset|
    && results == Rows(dataset[..i], outcomes[..i])
    && metrics.Keys == Categories(dataset[..i])
    && GroupedBy(metrics, results)
  }

  /** Before the loop nothing has been recorded. */
  lemma RunStart(dataset: seq<TestItem>, outcomes: seq<Invocation>)
    requires |outcomes| == |dataset|
    ensures RunState(dataset, outcomes, 0, [], map[])
  {
  }

  /** One iteration records the next row and tallies its score. */
  lemma RunStep(dataset: seq<TestItem>, outcomes: seq<Invocation>, i: nat,
                results: seq<ResultRow>, metrics: map<string, seq<int>>)
    requires RunState(dataset, outcomes, i, results, metrics) && i < |dataset|
    ensures var row := RowFor(dataset[i], outcomes[i]);
            RunState(dataset, outcomes, i + 1, results + [row], Tally(metrics, dataset[i].category, row.score))
  {
    var row := RowFor(dataset[i], outcomes[i]);
    GroupStep(metrics, results, row, dataset[i].category);
    CategoriesStep(dataset, i);
    RowsStep(dataset, outcomes, i);
  }

  /** After the last iteration the loop state gives `Run`'s postcondition. */
  lemma RunDone(dataset: seq<TestItem>, outcomes: seq<Invocation>,
                results: seq<ResultRow>, metrics: map<string, seq<int>>)
    requires RunState(dataset, outcomes, |dataset|, results, metrics)
    ensures |results| == |dataset|
    ensures results == Rows(dataset, outcomes)
    ensures forall i :: 0 <= i < |dataset| ==> results[i] == RowFor(dataset[i], outcomes[i])
    ensures forall i :: 0 <= i < |dataset| ==>
              && results[i].category == Some(dataset[i].category)
              && results[i].question == dataset[i].question
              && results[i].prediction == Prediction(outcomes[i])
              && results[i].score == Score(dataset[i].category, Prediction(outcomes[i]), ContextFound(outcomes[i]))
    ensures metrics.Keys == Categories(dataset)
    ensures forall c :: c in metrics ==> metrics[c] == ScoresOf(results, c)
    ensures forall c :: c in metrics ==> |metrics[c]| > 0 && AllIn(metrics[c], 0, 5)
    ensures metrics == Metrics(results, Categories(dataset))
  {
    assert dataset[..|dataset|] == dataset;
    assert outcomes[..|outcomes|] == outcomes;
    RowsAt(dataset, outcomes);
  }

  /** The scores recorded per category, for the given categories. */
  function Metrics(rows: seq<ResultRow>, categories: set<string>): map<string, seq<int>>
  {
    map c | c in categories :: ScoresOf(rows, c)
  }

  /** The rows for the first items, one per item. */
  function Rows(dataset: seq<TestItem>, outcomes: seq<Invocation>): (rows: seq<ResultRow>)
    requires |outcomes| == |dataset|
    ensures |rows| == |dataset|
  {
    if |dataset| == 0 then []
    else Rows(dataset[..|dataset| - 1], outcomes[..|outcomes| - 1])
         + [RowFor(dataset[|dataset| - 1], outcomes[|outcomes| - 1])]
  }

  /** The rows of a prefix one item longer end with that item's row. */
  lemma RowsStep(dataset: seq<TestItem>, outcomes: seq<Invocation>, i: nat)
    requires |outcomes| == |dataset| && i < |dataset|
    ensures Rows(dataset[..i + 1], outcomes[..i + 1]) == Rows(dataset[..i], outcomes[..i]) + [RowFor(dataset[i], outcomes[i])]
  {
    assert dataset[..i + 1][..i] == dataset[..i];
    assert outcomes[..i + 1][..i] == outcomes[..i];
  }

  /** `Rows` holds, at each position, the row of that item. */
  lemma {:induction false} RowsAt(dataset: seq<TestItem>, outcomes: seq<Invocation>)
    requires |outcomes| == |dataset|
    ensures |Rows(dataset, outcomes)| == |dataset|
    ensures forall i :: 0 <= i < |dataset| ==> Rows(dataset, outcomes)[i] == RowFor(dataset[i], outcomes[i])
  {
    forall i | 0 <= i < |dataset| ensures Rows(dataset, outcomes)[i] == RowFor(dataset[i], outcomes[i]) {
      RowAt(dataset, outcomes, i);
    }
  }

  /** Position `i` of the rows is the row of item `i`. */
  lemma {:induction false} RowAt(dataset: seq<TestItem>, outcomes: seq<Invocation>, i: nat)
    requires |outcomes| == |dataset| && i < |dataset|
    ensures Rows(dataset, outcomes)[i] == RowFor(dataset[i], outcomes[i])
    decreases |dataset|
  {
    var n := |dataset| - 1;
    var items, calls := dataset[..n], outcomes[..n];
    var rows, front := Rows(dataset, outcomes), Rows(items, calls);
    assert rows == front + [RowFor(dataset[n], outcomes[n])];
    if i < n {
      assert items[i] == dataset[i] && calls[i] == outcomes[i];
      RowAt(items, calls, i);
      assert rows[i] == front[i];
    }
  }

  /**
   `metrics` groups the scores of `rows` by category: each key holds the
   non-empty, in-range scores of its rows, and other categories have no rows.
   */
  ghost predicate GroupedBy(metrics: map<string, seq<int>>, rows: seq<ResultRow>)
  {
    && (forall c :: c in metrics ==> metrics[c] == ScoresOf(rows, c) && |metrics[c]| > 0)
    && (forall c :: c in metrics ==> AllIn(metrics[c], 0, 5))
    && (forall c :: c !in metrics ==> ScoresOf(rows, c) == [])
  }

  /** Recording one more row appends its score to its own category only. */
  lemma GroupStep(metrics: map<string, seq<int>>, rows: seq<ResultRow>, row: ResultRow, cat: string)
    requires GroupedBy(metrics, rows)
    requires row.category == Some(cat) && 0 <= row.score <= 5
    ensures GroupedBy(Tally(metrics, cat, row.score), rows + [row])
  {
    var rows' := rows + [row];
    var metrics' := metrics[cat := (if cat in metrics then metrics[cat] else []) + [row.score]];
    assert rows'[..|rows'| - 1] == rows;
    forall c ensures ScoresOf(rows', c) == ScoresOf(rows, c) + (if c == cat then [row.score] else []) {
    }
    forall c | c in metrics' ensures AllIn(metrics'[c], 0, 5) {
      if c == cat {
        var prior := if cat in metrics then metrics[cat] else [];
        assert AllIn(prior, 0, 5);
        assert metrics'[c] == prior + [row.score];
      }
    }
  }

  /** A prefix one item longer adds only that item's category. */
  lemma CategoriesStep(dataset: seq<TestItem>, i: nat)
    requires i < |dataset|
    ensures Categories(dataset[..i + 1]) == Categories(dataset[..i]) + {dataset[i].category}
  {
    assert dataset[..i + 1][..i] == dataset[..i];
  }

  /** The per-category mean printed in the summary. */
  function CategoryMeans(metrics: map<string, seq<int>>): (means: map<string, real>)
    requires forall c :: c in metrics ==> |metrics[c]| > 0
    ensures means.Keys == metrics.Keys
    ensures forall c :: c in metrics ==> means[c] == Mean(metrics[c])
    ensures forall c :: c in metrics ==> means[c] * |metrics[c]| as real == Sum(metrics[c]) as real
    ensures forall c :: c in metrics && AllIn(metrics[c], 0, 5) ==> 0.0 <= means[c] <= 5.0
  {
    MeansInRange(metrics);
    map c | c in metrics :: Mean(metrics[c])
  }

  /** Means of in-range, non-empty score lists are in range. */
  lemma MeansInRange(metrics: map<string, seq<int>>)
    requires forall c :: c in metrics ==> |metrics[c]| > 0
    ensures forall c :: c in metrics && AllIn(metrics[c], 0, 5) ==> 0.0 <= Mean(metrics[c]) <= 5.0
  {
    forall c | c in metrics && AllIn(metrics[c], 0, 5) ensures 0.0 <= Mean(metrics[c]) <= 5.0 {
      MeanBounds(metrics[c], 5);
    }
  }

  /** The score takes one of four values: it is never 1 or 4. */
  lemma ScoreValues(category: string, prediction: string, contextFound: bool)
    ensures Score(category, prediction, contextFound) != 1
    ensures Score(category, prediction, contextFound) != 4
  {
  }

  /**
   The override needs all three conditions: with context found it never
   applies, and a 5 without context is always a correct refusal.
   */
  lemma OverrideOnlyWithoutContext(category: string, prediction: string, contextFound: bool)
    ensures Score(category, prediction, contextFound) == 5 && !contextFound
            <==> !contextFound && IsRefusal(category, prediction)
  {
  }

  /**
   A failed call scores like an answer without context: the prediction is the
   error text, so the score is 0 or 2 unless that text is a correct refusal.
   */
  lemma RaisedScore(item: TestItem, message: string)
    ensures IsPrefix(ErrorPrefix, RowFor(item, Raised(message)).prediction)
    ensures !IsRefusal(item.category, ErrorPrefix + message) ==>
              RowFor(item, Raised(message)).score in {0, 2}
    ensures |message| > LengthThreshold - |ErrorPrefix| && !IsRefusal(item.category, ErrorPrefix + message) ==>
              RowFor(item, Raised(message)).score == 2
  {
  }

  /** The lowered refusal phrase is itself. */
  lemma RefusalPhraseIsLower()
    ensures Lower(RefusalPhrase) == RefusalPhrase
  {
    forall i | 0 <= i < |RefusalPhrase| ensures Lower(RefusalPhrase)[i] == RefusalPhrase[i] {
      assert RefusalPhrase[i] == ' ' || 'а' <= RefusalPhrase[i] <= 'я';
    }
  }

  /**
   A generalization item answered without context by text that contains the
   refusal phrase, in any letter case, scores exactly 5.
   */
  lemma RefusalScoresFive(category: string, prediction: string)
    requires Contains(category, GeneralizationTag)
    requires Contains(Lower(prediction), RefusalPhrase) || Contains(prediction, RefusalPhrase)
    ensures Score(category, prediction, false) == 5
  {
    if Contains(prediction, RefusalPhrase) {
      LowerKeepsOccurrence(prediction, RefusalPhrase);
      RefusalPhraseIsLower();
    }
  }

  /** The scores of a category are those of its rows, in order, one per row. */
  lemma {:induction false} ScoresOfCount(rows: seq<ResultRow>, c: string)
    ensures |ScoresOf(rows, c)| == |RowsOf(rows, c)|
  {
    if |rows| > 0 {
      ScoresOfCount(rows[..|rows| - 1], c);
      RowsOfStep(rows, c);
    }
  }

  /** The positions of the rows of category `c`. */
  function RowsOf(rows: seq<ResultRow>, c: string): set<nat>
  {
    set i: nat | i < |rows| && rows[i].category == Some(c)
  }

  /** The rows of a category in a non-empty list: those of its initial part, and possibly the last. */
  lemma RowsOfStep(rows: seq<ResultRow>, c: string)
    requires |rows| > 0
    ensures RowsOf(rows, c) == RowsOf(rows[..|rows| - 1], c) + (if rows[|rows| - 1].category == Some(c) then {|rows| - 1} else {})
    ensures |rows| - 1 !in RowsOf(rows[..|rows| - 1], c)
  {
  }

  /**
   The rows of a non-empty run always yield a report whose four bands count
   every row once and whose average score lies in 0..5.
   */
  lemma RunReportIsBalanced(dataset: seq<TestItem>, outcomes: seq<Invocation>)
    requires |outcomes| == |dataset| && |dataset| > 0
    ensures var summary := Report.Summarize(Rows(dataset, outcomes));
            && summary.Some?
            && summary.value.high + summary.value.satisfactory + summary.value.low + summary.value.failures == |dataset|
            && 0.0 <= summary.value.averageScore <= 5.0
  {
    var rows := Rows(dataset, outcomes);
    RowsAt(dataset, outcomes);
    var scores := Report.ScoreList(rows);
    assert AllIn(scores, 0, 5) by {
      forall i | 0 <= i < |scores| ensures 0 <= scores[i] <= 5 {
        assert scores[i] == RowFor(dataset[i], outcomes[i]).score;
      }
    }
  }

  /**
   The exception path is scored on the error text like any answer: on a
   generalization item, an exception whose message contains the refusal phrase
   in any letter case scores 5.
   */
  lemma RaisedRefusalScoresFive(item: TestItem, message: string)
    requires Contains(item.category, GeneralizationTag)
    requires Contains(Lower(message), RefusalPhrase)
    ensures RowFor(item, Raised(message)).score == 5
  {
    var prediction := ErrorPrefix + message;
    LowerAppend(ErrorPrefix, message);
    ContainsAfterPrefix(Lower(ErrorPrefix), Lower(message), RefusalPhrase);
    assert Contains(Lower(prediction), RefusalPhrase);
    RefusalScoresFive(item.category, prediction);
  }

  /** The two test items of the scenario below. */
  const ScenarioItems: seq<TestItem> := [TestItem("q1", "facts"), TestItem("q2", GeneralizationTag)]

  /**
   The chain's outcomes in the two-item scenario: a long answer backed by
   `context`, then "Нет информации." with no context.
   */
  function ScenarioOutcomes(context: seq<Document>): seq<Invocation>
  {
    [Answered("A sufficiently long answer.", context), Answered("Нет информации.", [])]
  }

  /**
   Two items through the harness, as in `ScenarioRows`: each of the two
   categories recorded the single score 5, and the summary prints a mean of 5
   for each of them and for nothing else.
   */
  lemma TwoItemScenario(context: seq<Document>)
    requires |context| > 0
    ensures var metrics := Metrics(Rows(ScenarioItems, ScenarioOutcomes(context)), Categories(ScenarioItems));
            && metrics == map["facts" := [5], GeneralizationTag := [5]]
            && CategoryMeans(metrics) == map["facts" := 5.0, GeneralizationTag := 5.0]
  {
    var rows := Rows(ScenarioItems, ScenarioOutcomes(context));
    ScenarioRows(context);
    TwoCategoriesOfFives(rows);
  }

  /** When both scenario categories recorded the single score 5, so do the metrics, and both means are 5. */
  lemma TwoCategoriesOfFives(rows: seq<ResultRow>)
    requires ScoresOf(rows, "facts") == [5] && ScoresOf(rows, GeneralizationTag) == [5]
    ensures var metrics := Metrics(rows, {"facts", GeneralizationTag});
            && metrics == map["facts" := [5], GeneralizationTag := [5]]
            && CategoryMeans(metrics) == map["facts" := 5.0, GeneralizationTag := 5.0]
  {
    var categories := {"facts", GeneralizationTag};
    MeansOfFives(rows, categories);
    assert Metrics(rows, categories) == map["facts" := [5], GeneralizationTag := [5]];
  }

  /**
   The rows of the two-item scenario: both score 5, the categories met are
   the two items' own, and each of them recorded exactly the score 5.
   */
  lemma ScenarioRows(context: seq<Document>)
    requires |context| > 0
    ensures var rows := Rows(ScenarioItems, ScenarioOutcomes(context));
            && |rows| == 2 && rows[0].score == 5 && rows[1].score == 5
            && Categories(ScenarioItems) == {"facts", GeneralizationTag}
            && (forall c :: c in Categories(ScenarioItems) ==> ScoresOf(rows, c) == [5] && Mean(ScoresOf(rows, c)) == 5.0)
  {
    var outcomes := ScenarioOutcomes(context);
    var rows := Rows(ScenarioItems, outcomes);
    TwoRows(ScenarioItems, outcomes);
    LongAnswerScoresFive(ScenarioItems[0], "A sufficiently long answer.", context);
    CapitalisedRefusalScoresFive(ScenarioItems[1]);
    assert rows[0] == RowFor(ScenarioItems[0], outcomes[0]) && rows[0].score == 5;
    assert rows[1] == RowFor(ScenarioItems[1], outcomes[1]) && rows[1].score == 5;
    assert rows[0].category == Some("facts") && rows[1].category == Some(GeneralizationTag);
    TwoCategories(ScenarioItems);
    assert Sum([5]) == 5 by {
      assert [5][..0] == [];
    }
    forall c | c in Categories(ScenarioItems)
      ensures ScoresOf(rows, c) == [5] && Mean(ScoresOf(rows, c)) == 5.0
    {
      TwoScores(rows, c);
    }
  }

  /** When every category met recorded the single score 5, every printed mean is 5. */
  lemma MeansOfFives(rows: seq<ResultRow>, categories: set<string>)
    requires forall c :: c in categories ==> ScoresOf(rows, c) == [5]
    ensures CategoryMeans(Metrics(rows, categories)) == map c | c in categories :: 5.0
  {
    var metrics := Metrics(rows, categories);
    assert Sum([5]) == 5 by {
      assert [5][..0] == [];
    }
    var means := CategoryMeans(metrics);
    forall c | c in categories ensures means[c] == 5.0 {
      assert metrics[c] == [5];
    }
  }

  /** An answer longer than the threshold, with context, scores 5. */
  lemma LongAnswerScoresFive(item: TestItem, answer: string, context: seq<Document>)
    requires |context| > 0 && |answer| > LengthThreshold
    ensures RowFor(item, Answered(answer, context)).score == 5
  {
  }

  /** "Нет информации." without context, on a generalization item, scores 5. */
  lemma CapitalisedRefusalScoresFive(item: TestItem)
    requires item.category == GeneralizationTag
    ensures RowFor(item, Answered("Нет информации.", [])).score == 5
  {
    var refusal := "Нет информации.";
    assert refusal[..|RefusalPhrase|] == "Нет информации";
    LowerPrefix(refusal, |RefusalPhrase|);
    assert Lower("Нет информации") == RefusalPhrase;
    assert IsPrefix(RefusalPhrase, Lower(refusal));
    assert IsPrefix(GeneralizationTag, GeneralizationTag);
  }

  /** The rows of two items are their two rows, in order. */
  lemma TwoRows(dataset: seq<TestItem>, outcomes: seq<Invocation>)
    requires |dataset| == |outcomes| == 2
    ensures Rows(dataset, outcomes) == [RowFor(dataset[0], outcomes[0]), RowFor(dataset[1], outcomes[1])]
  {
    RowsStep(dataset, outcomes, 0);
    RowsStep(dataset, outcomes, 1);
    assert dataset[..0] == [] && outcomes[..0] == [];
    assert dataset[..2] == dataset && outcomes[..2] == outcomes;
  }

  /** The categories of two items are theirs. */
  lemma TwoCategories(dataset: seq<TestItem>)
    requires |dataset| == 2
    ensures Categories(dataset) == {dataset[0].category, dataset[1].category}
  {
    CategoriesStep(dataset, 0);
    CategoriesStep(dataset, 1);
    assert dataset[..0] == [];
    assert dataset[..2] == dataset;
  }

  /** The scores of a category over two rows: those of the rows carrying it, in order. */
  lemma TwoScores(rows: seq<ResultRow>, c: string)
    requires |rows| == 2
    ensures ScoresOf(rows, c) == (if rows[0].category == Some(c) then [rows[0].score] else [])
                                 + (if rows[1].category == Some(c) then [rows[1].score] else [])
  {
    var front := rows[..1];
    assert rows[..|rows| - 1] == front;
    assert front[..|front| - 1] == [];
    assert ScoresOf(front, c) == (if rows[0].category == Some(c) then [rows[0].score] else []);
  }
}

=== FILE: pipeline.dfy ===
/**
 The records that flow between the answering chain, the evaluation harness,
 the report generator and the chat page.
 */
module Pipeline {
  import opened Base

  /** The metadata keys the core reads from a retrieved chunk. */
  datatype Metadata = Metadata(sourceFile: Option<string>, page: Option<int>)

  /** A retrieved context chunk: its text and the metadata inherited from its file. */
  datatype Document = Document(content: string, metadata: Metadata)

  /**
   What one `rag_chain.invoke` call produced: the answer together with the
   retrieved context, or the message of the exception it raised.
   */
  datatype Invocation =
    | Answered(answer: string, context: seq<Document>)
    | Raised(message: string)

  /**
   One evaluation record (a row of `results`). The category is optional because
   the report reads it with a default; the harness always fills it in. Latency
   is not part of the model.
   */
  datatype ResultRow = ResultRow(
    category: Option<string>,
    question: string,
    prediction: string,
    score: int,
    explanation: string)
}

=== FILE: report.dfy ===
/**
 The summary report over evaluation records: nothing for an empty run,
 otherwise the mean score, four quality bands, and a detail entry for every
 record that scored 3 or less, in record order. Dates, latencies and the
 Markdown text itself are not part of the model.
 */
module Report {
  import opened Base
  import opened Pipeline

  /** Shown for a record that has no category. */
  const MissingCategory: string := "N/A"

  /** Records scoring at most this are listed in the detail section. */
  const DetailThreshold: int := 3

  /** One entry of the detail section. */
  datatype Detail = Detail(question: string, category: string, score: int, prediction: string)

  /** The figures of the report. */
  datatype Summary = Summary(
    sampleSize: nat,
    averageScore: real,
    high: nat,          // score 5
    satisfactory: nat,  // score 3 or 4
    low: nat,           // score 1 or 2
    failures: nat,      // score 0
    details: seq<Detail>)

  /** The records' scores, in record order. */
  function ScoreList(results: seq<ResultRow>): seq<int>
  {
    seq(|results|, i requires 0 <= i < |results| => results[i].score)
  }

  /** The detail entry shown for a record. */
  function DetailOf(row: ResultRow): Detail
  {
    Detail(row.question, row.category.GetOr(MissingCategory), row.score, row.prediction)
  }

  /** Whether a record is listed in the detail section. */
  predicate NeedsAttention(row: ResultRow)
  {
    row.score <= DetailThreshold
  }

  /**
   The detail entries of the records needing attention, in record order:
   never more entries than records, and every entry shows a score of at most 3.
   */
  function Details(results: seq<ResultRow>): (entries: seq<Detail>)
    ensures |entries| <= |results|
    ensures forall k :: 0 <= k < |entries| ==> entries[k].score <= DetailThreshold
  {
    if |results| == 0 then []
    else Details(results[..|results| - 1])
         + (if NeedsAttention(results[|results| - 1]) then [DetailOf(results[|results| - 1])] else [])
  }

  /**
   The report's figures, or nothing when there are no records (the report is
   then neither built nor written).
   */
  function Summarize(results: seq<ResultRow>): (r: Option<Summary>)
    ensures r.None? <==> |results| == 0
    ensures r.Some? ==> r.value.sampleSize == |results|
    ensures r.Some? ==> r.value.averageScore == Sum(ScoreList(results)) as real / |results| as real
    ensures r.Some? ==> && r.value.high == Count(ScoreList(results), 5)
                        && r.value.satisfactory == Count(ScoreList(results), 4) + Count(ScoreList(results), 3)
                        && r.value.low == Count(ScoreList(results), 2) + Count(ScoreList(results), 1)
                        && r.value.failures == Count(ScoreList(results), 0)
    ensures r.Some? ==> r.value.high <= |results| && r.value.satisfactory <= |results|
                        && r.value.low <= |results| && r.value.failures <= |results|
    ensures r.Some? && AllIn(ScoreList(results), 0, 5) ==>
              && r.value.high + r.value.satisfactory + r.value.low + r.value.failures == |results|
              && 0.0 <= r.value.averageScore <= 5.0
    ensures r.Some? ==> r.value.details == Details(results)
    ensures r.Some? ==> |r.value.details| <= |results|
    ensures r.Some? ==> forall k :: 0 <= k < |r.value.details| ==> r.value.details[k].score <= DetailThreshold
  {
    if |results| == 0 then None
    else
      var scores := ScoreList(results);
      BandFacts(scores);
      Some(Summary(
        |results|,
        Mean(scores),
        Count(scores, 5),
        Count(scores, 4) + Count(scores, 3),
        Count(scores, 2) + Count(scores, 1),
        Count(scores, 0),
        Details(results)))
  }

  /** The loop that appends one entry per record needing attention. */
  method CollectDetails(results: seq<ResultRow>) returns (entries: seq<Detail>)
    ensures entries == Details(results)
    ensures forall k :: 0 <= k < |entries| ==> entries[k].score <= DetailThreshold
  {
    entries := [];
    for i := 0 to |results|
      invariant entries == Details(results[..i])
    {
      assert results[..i + 1][..i] == results[..i];
      if results[i].score <= DetailThreshold {
        entries := entries + [DetailOf(results[i])];
      }
    }
    assert results[..|results|] == results;
  }

  /** The band bounds of `Summarize`, gathered for a non-empty score list. */
  lemma BandFacts(scores: seq<int>)
    requires |scores| > 0
    ensures Count(scores, 4) + Count(scores, 3) <= |scores|
    ensures Count(scores, 2) + Count(scores, 1) <= |scores|
    ensures AllIn(scores, 0, 5) ==>
              && Count(scores, 5) + (Count(scores, 4) + Count(scores, 3))
                 + (Count(scores, 2) + Count(scores, 1)) + Count(scores, 0) == |scores|
              && 0.0 <= Mean(scores) <= 5.0
  {
    CountPairBound(scores, 4, 3);
    CountPairBound(scores, 2, 1);
    if AllIn(scores, 0, 5) {
      BandsPartition(scores);
      MeanBounds(scores, 5);
    }
  }

  /** Two different values are counted by disjoint sets of positions. */
  lemma {:induction false} CountPairBound(s: seq<int>, a: int, b: int)
    requires a != b
    ensures Count(s, a) + Count(s, b) <= |s|
  {
    if |s| > 0 {
      CountPairBound(s[..|s| - 1], a, b);
    }
  }

  /** With every score in 0..5, the four bands count every record exactly once. */
  lemma {:induction false} BandsPartition(s: seq<int>)
    requires AllIn(s, 0, 5)
    ensures Count(s, 5) + (Count(s, 4) + Count(s, 3)) + (Count(s, 2) + Count(s, 1)) + Count(s, 0) == |s|
  {
    if |s| > 0 {
      var init := s[..|s| - 1];
      assert AllIn(init, 0, 5) by {
        forall i | 0 <= i < |init| ensures 0 <= init[i] <= 5 {
          assert init[i] == s[i];
        }
      }
      BandsPartition(init);
    }
  }

  /** Building the detail section distributes over concatenation of record lists: order is kept. */
  lemma {:induction false} DetailsAppend(xs: seq<ResultRow>, ys: seq<ResultRow>)
    ensures Details(xs + ys) == Details(xs) + Details(ys)
    decreases |ys|
  {
    if |ys| == 0 {
      assert xs + ys == xs;
    } else {
      var ys' := ys[..|ys| - 1];
      assert (xs + ys)[..|xs + ys| - 1] == xs + ys';
      DetailsAppend(xs, ys');
    }
  }

  /**
   A record's entry is in the detail section exactly when it needs attention;
   every entry comes from a record needing attention.
   */
  lemma {:induction false} DetailsExactly(results: seq<ResultRow>, d: Detail)
    ensures d in Details(results) <==>
            exists i :: 0 <= i < |results| && NeedsAttention(results[i]) && DetailOf(results[i]) == d
  {
    if |results| > 0 {
      var init := results[..|results| - 1];
      DetailsExactly(init, d);
      if exists i :: 0 <= i < |results| && NeedsAttention(results[i]) && DetailOf(results[i]) == d {
        var i :| 0 <= i < |results| && NeedsAttention(results[i]) && DetailOf(results[i]) == d;
        if i < |init| {
          assert init[i] == results[i];
        }
      }
      if d in Details(init) {
        var i :| 0 <= i < |init| && NeedsAttention(init[i]) && DetailOf(init[i]) == d;
        assert results[i] == init[i];
      }
    }
  }

  /** No record scoring 4 or 5 contributes an entry. */
  lemma HighScoresNotDetailed(results: seq<ResultRow>, i: nat)
    requires i < |results| && results[i].score >= 4
    ensures forall k :: 0 <= k < |Details(results)| ==> Details(results)[k] != DetailOf(results[i])
  {
  }
}

=== FILE: text.dfy ===
/**
 The Python string operations the core relies on, over `seq<char>` strings:
 substring membership (`sub in s`), `str.replace`, `str.lower` and the
 decimal rendering of integers inside f-strings (`f"{n}"`).
 */
module Text {

  /** `s.startswith(p)`. */
  predicate IsPrefix(p: string, s: string)
  {
    |p| <= |s| && s[..|p|] == p
  }

  /** `sub in s`: some suffix of `s` starts with `sub` (the empty string is in every string). */
  predicate Contains(s: string, sub: string)
    decreases |s|
  {
    IsPrefix(sub, s) || (|s| > 0 && Contains(s[1..], sub))
  }

  /** `sub` occurs in `s` at offset `i`. */
  predicate OccursAt(s: string, sub: string, i: int)
  {
    0 <= i && i + |sub| <= |s| && s[i..i + |sub|] == sub
  }

  /** `Contains` holds exactly when `sub` occurs at some offset of `s`. */
  lemma {:induction false} ContainsIffOccurs(s: string, sub: string)
    ensures Contains(s, sub) <==> exists i :: OccursAt(s, sub, i)
    decreases |s|
  {
    if Contains(s, sub) {
      if IsPrefix(sub, s) {
        assert OccursAt(s, sub, 0);
      } else {
        ContainsIffOccurs(s[1..], sub);
        var i :| OccursAt(s[1..], sub, i);
        assert s[1..][i..i + |sub|] == s[i + 1..i + 1 + |sub|];
        assert OccursAt(s, sub, i + 1);
      }
    }
    if exists i :: OccursAt(s, sub, i) {
      var i :| OccursAt(s, sub, i);
      if i > 0 {
        assert s[1..][i - 1..i - 1 + |sub|] == s[i..i + |sub|];
        assert OccursAt(s[1..], sub, i - 1);
        ContainsIffOccurs(s[1..], sub);
      } else {
        assert IsPrefix(sub, s);
      }
    }
  }

  /**
   `s.replace(pat, sub)` for a non-empty `pat`: scanning left to right, every
   non-overlapping occurrence of `pat` is replaced by `sub`.
   */
  function Replace(s: string, pat: string, sub: string): (r: string)
    requires |pat| > 0
    ensures |sub| <= |pat| ==> |r| <= |s|
    ensures forall c :: c in r ==> c in s || c in sub
    ensures |pat| == 1 && pat[0] !in sub ==> pat[0] !in r
    ensures |sub| == |pat| ==> |r| == |s|
    ensures |pat| == 1 && |sub| == 1 ==>
              forall i :: 0 <= i < |s| ==> r[i] == (if s[i] == pat[0] then sub[0] else s[i])
    decreases |s|
  {
    if |s| == 0 then s
    else if IsPrefix(pat, s) then sub + Replace(s[|pat|..], pat, sub)
    else [s[0]] + Replace(s[1..], pat, sub)
  }

  /** Where `pat` does not occur, `s.replace(pat, sub)` is `s` itself. */
  lemma {:induction false} ReplaceWithoutPattern(s: string, pat: string, sub: string)
    requires |pat| > 0
    ensures !Contains(s, pat) ==> Replace(s, pat, sub) == s
    decreases |s|
  {
    if |s| > 0 && !Contains(s, pat) {
      ReplaceWithoutPattern(s[1..], pat, sub);
      assert [s[0]] + s[1..] == s;
    }
  }

  /**
   The first occurrence of `pat` is the first one replaced: everything before
   it is copied, it becomes `sub`, and the scan resumes right after it.
   Together with `ReplaceWithoutPattern` this fixes `Replace` on every string.
   */
  lemma {:induction false} ReplaceAtFirst(s: string, pat: string, sub: string, i: int)
    requires |pat| > 0 && OccursAt(s, pat, i)
    requires forall j :: 0 <= j < i ==> !OccursAt(s, pat, j)
    ensures Replace(s, pat, sub) == s[..i] + sub + Replace(s[i + |pat|..], pat, sub)
    decreases i
  {
    if i == 0 {
      assert IsPrefix(pat, s);
      assert Replace(s, pat, sub) == sub + Replace(s[|pat|..], pat, sub);
      assert s[..0] + sub == sub;
    } else {
      var rest := s[1..];
      ReplaceSkipsFirst(s, pat, sub);
      OccursShift(s, pat, i - 1);
      forall j | 0 <= j < i - 1 ensures !OccursAt(rest, pat, j) {
        OccursShift(s, pat, j);
      }
      ReplaceAtFirst(rest, pat, sub, i - 1);
      assert rest[..i - 1] == s[1..i] && rest[i - 1 + |pat|..] == s[i + |pat|..];
      assert s[..i] == [s[0]] + s[1..i];
      ConsJoin(Replace(s, pat, sub), s[0], Replace(rest, pat, sub), s[1..i], sub, Replace(s[i + |pat|..], pat, sub));
    }
  }

  /** Putting a character in front of `m + sub + t` extends the front part. */
  lemma ConsJoin(r: string, c: char, a: string, m: string, sub: string, t: string)
    requires r == [c] + a && a == m + sub + t
    ensures r == ([c] + m) + sub + t
  {
  }

  /** Where `pat` does not start `s`, its first character is copied and the scan moves on. */
  lemma ReplaceSkipsFirst(s: string, pat: string, sub: string)
    requires |pat| > 0 && |s| > 0 && !OccursAt(s, pat, 0)
    ensures Replace(s, pat, sub) == [s[0]] + Replace(s[1..], pat, sub)
  {
    assert !IsPrefix(pat, s);
  }

  /** An occurrence in the tail of `s` is an occurrence in `s`, one position later. */
  lemma OccursShift(s: string, pat: string, j: nat)
    requires |s| > 0
    ensures OccursAt(s[1..], pat, j) <==> OccursAt(s, pat, j + 1)
  {
    if j + |pat| <= |s| - 1 {
      assert s[1..][j..j + |pat|] == s[j + 1..j + 1 + |pat|];
    }
  }

  /** Replacing one character by one character works character by character, so it distributes over `+`. */
  lemma ReplaceCharAppend(x: string, y: string, pat: string, sub: string)
    requires |pat| == 1 && |sub| == 1
    ensures Replace(x + y, pat, sub) == Replace(x, pat, sub) + Replace(y, pat, sub)
  {
    var r, rx, ry := Replace(x + y, pat, sub), Replace(x, pat, sub), Replace(y, pat, sub);
    forall i | 0 <= i < |r| ensures r[i] == (rx + ry)[i] {
      if i < |x| {
        assert (x + y)[i] == x[i];
      } else {
        assert (x + y)[i] == y[i - |x|];
      }
    }
  }

  /** Python's `str.lower` on one character; see `IsUpper` for the characters it folds. */
  function LowerChar(c: char): char
  {
    if 'A' <= c <= 'Z' then (c as int + 32) as char
    else if 'А' <= c <= 'Я' then (c as int + 32) as char
    else if 'Ѐ' <= c <= 'Џ' then (c as int + 80) as char
    else c
  }

  /** The upper-case letters `LowerChar` folds: Latin A-Z and the Cyrillic block U+0400..U+042F. */
  predicate IsUpper(c: char)
  {
    'A' <= c <= 'Z' || 'Ѐ' <= c <= 'Я'
  }

  /**
   `s.lower()`, character by character: the length is kept, no upper-case
   letter remains, and every other character is left as it was.
   */
  function Lower(s: string): (r: string)
    ensures |r| == |s|
    ensures forall i :: 0 <= i < |r| ==> !IsUpper(r[i])
    ensures forall i :: 0 <= i < |s| && !IsUpper(s[i]) ==> r[i] == s[i]
  {
    seq(|s|, i requires 0 <= i < |s| => LowerChar(s[i]))
  }

  /** Lowering folds every upper-case letter and leaves every other character alone. */
  lemma LowerCharFolds(c: char)
    ensures !IsUpper(c) <==> LowerChar(c) == c
    ensures !IsUpper(LowerChar(c))
  {
  }

  /** Lowering is idempotent. */
  lemma LowerIdempotent(s: string)
    ensures Lower(Lower(s)) == Lower(s)
  {
    forall i | 0 <= i < |s| ensures Lower(Lower(s))[i] == Lower(s)[i] {
      LowerCharFolds(s[i]);
      LowerCharFolds(LowerChar(s[i]));
    }
  }

  /** Lowering commutes with taking a prefix. */
  lemma LowerPrefix(s: string, n: nat)
    requires n <= |s|
    ensures Lower(s)[..n] == Lower(s[..n])
  {
  }

  /** Lowering a concatenation lowers each part. */
  lemma LowerAppend(a: string, b: string)
    ensures Lower(a + b) == Lower(a) + Lower(b)
  {
    forall i | 0 <= i < |a + b| ensures Lower(a + b)[i] == (Lower(a) + Lower(b))[i] {
      if i < |a| {
        assert (a + b)[i] == a[i];
      } else {
        assert (a + b)[i] == b[i - |a|];
      }
    }
  }

  /** Text put in front of a string keeps every occurrence the string had. */
  lemma ContainsAfterPrefix(front: string, s: string, sub: string)
    requires Contains(s, sub)
    ensures Contains(front + s, sub)
  {
    ContainsIffOccurs(s, sub);
    var i :| OccursAt(s, sub, i);
    var t := front + s;
    assert t[|front| + i..|front| + i + |sub|] == s[i..i + |sub|];
    assert OccursAt(t, sub, |front| + i);
    ContainsIffOccurs(t, sub);
  }

  /** An occurrence of `sub` in `s` is an occurrence of `Lower(sub)` in `Lower(s)`. */
  lemma LowerKeepsOccurrence(s: string, sub: string)
    requires Contains(s, sub)
    ensures Contains(Lower(s), Lower(sub))
  {
    ContainsIffOccurs(s, sub);
    var i :| OccursAt(s, sub, i);
    assert Lower(s)[i..i + |sub|] == Lower(sub) by {
      forall k | 0 <= k < |sub| ensures Lower(s)[i..i + |sub|][k] == Lower(sub)[k] {
        assert s[i + k] == sub[k];
      }
    }
    assert OccursAt(Lower(s), Lower(sub), i);
    ContainsIffOccurs(Lower(s), Lower(sub));
  }

  /** The character for a decimal digit. */
  function DigitChar(d: nat): char
    requires d < 10
  {
    ('0' as int + d) as char
  }

  /** A decimal digit character. */
  predicate IsDigit(c: char)
  {
    '0' <= c <= '9'
  }

  /** `str(n)` for a natural number: its decimal digits, without leading zeros. */
  function NatToString(n: nat): (r: string)
    ensures |r| > 0
    ensures forall i :: 0 <= i < |r| ==> IsDigit(r[i])
    ensures r[0] == '0' ==> n == 0
    decreases n
  {
    if n < 10 then [DigitChar(n)]
    else NatToString(n / 10) + [DigitChar(n % 10)]
  }

  /** `str(i)` for any integer: a minus sign before the digits of a negative number. */
  function IntToString(i: int): (r: string)
    ensures |r| > 0
    ensures r[0] == '-' <==> i < 0
  {
    if i < 0 then "-" + NatToString(-i) else NatToString(i)
  }

  /** `int(s)` for a string of decimal digits. */
  function ParseNat(s: string): nat
    requires forall i :: 0 <= i < |s| ==> IsDigit(s[i])
  {
    if |s| == 0 then 0
    else
      assert IsDigit(s[|s| - 1]);
      ParseNat(s[..|s| - 1]) * 10 + (s[|s| - 1] as int - '0' as int)
  }

  /** Reading back the decimal rendering of `n` gives `n`. */
  lemma {:induction false} NatToStringRoundTrip(n: nat)
    ensures ParseNat(NatToString(n)) == n
    decreases n
  {
    if n >= 10 {
      var r := NatToString(n);
      assert r[..|r| - 1] == NatToString(n / 10);
      NatToStringRoundTrip(n / 10);
    }
  }

  /** Distinct natural numbers render as distinct strings. */
  lemma NatToStringInjective(m: nat, n: nat)
    requires NatToString(m) == NatToString(n)
    ensures m == n
  {
    NatToStringRoundTrip(m);
    NatToStringRoundTrip(n);
  }
}
